=== FILE: README.md ===
# Student records app: a Dafny model of its core

The application is a Next.js student directory. An "Add Student" page
validates each field as it is typed. It can upload a profile picture to Azure
Blob Storage through a short-lived signed URL, and then posts the form to
`/api/students`. A data-access layer (`createUser`, `getStudentByEmail`,
`getAllUsers`) sits over one students table. Two server actions feed
`createUser`. A student list lets the user delete a row, edit it, or replace
its photo.

The model covers each of those pieces with pure functions over immutable
values:

- `js.dfy` (module `Js`): the runtime pieces the code relies on.
  `null`/`undefined`, the ECMAScript whitespace class that both `\s` and
  `trim` use, `trim`, `||` on strings, and ASCII upper-casing.
- `field_rules.dfy` (`FieldRules`): the `patterns` and `messages` tables and
  `validate`, as one entry of the `errors` map. It includes the catch path,
  which is reached for field names inherited from `Object.prototype`.
- `records.dfy` (`Records`): the table as a map keyed by email, and
  `createUser`, `getStudentByEmail` and `getAllUsers`.
- `students_route.dfy` (`StudentsRoute`): the `POST /api/students` handler.
- `blob_sas.dfy` (`BlobSas`): the `POST /api/blob-sas` handler. The UUID, the
  clock and the SDK signer are parameters.
- `client.dfy` (`Client`): what a `fetch` can settle to, the requests and
  navigation the pages issue, and `uploadToAzureBlob`. The page and the list
  define that function identically, so one model serves both.
- `users_form.dfy` (`UsersForm`): `handleSubmit` and the hidden
  `profile_picture_url` field.
- `student_list.dfy` (`StudentList`): the delete, edit, save and
  replace-photo handlers.
- `actions.dfy` (`Actions`): `StudentAction` and `UserAction`.

A network reply is an input. It is `Ok(body)`, `NotOk(text)` (a response
without `ok`) or `Rejected(message)` (a rejected promise). A handler returns
its new state together with the log of the requests and router calls it made.
The database outcome of the students route is an input too: a fault message,
or none.

Behaviour of the code that the model reproduces:

- The postal pattern is keyed `postalcode`, but the form validates under
  `postal_code`. So the postal field only ever gets the required check, and
  `"T2N 1N"` is accepted.
- The phone rule is exactly ten characters, while its message says "at least
  10 digits".
- The students route checks `phone` before `email` and has no duplicate
  check. `createUser` checks `email` before `phone` and refuses a duplicate.
- Both server actions always fail, because the objects they build leave out
  a required field.
- `createUser` reports a duplicate email by throwing a plain `Error`; no
  status code is attached to it.
- `createUser` checks for missing fields before it looks for a duplicate.
- The students route answers 200 with `{ ok: true }` on success.

## Model

| member | source | states |
|---|---|---|
| Js.Trim | app/lib/students.js:69 | `String(v).trim()` is `""` exactly when every character of `v` is ECMAScript whitespace |
| Js.ToUpperAscii | app/UsersPage/page.js:417 | upper-casing keeps the length, turns each `a`-`z` into its `A`-`Z` partner, and changes nothing else |
| FieldRules.Verdict | app/UsersPage/page.js:80-117 | an empty value gets `"<field> is required."`; an inherited field name gets `"Error validating <field>"` from the catch; an unpatterned field clears; a matching value clears |
| FieldRules.Validate | app/UsersPage/page.js:80-117 | `validate` writes only `errors[field]`; every other entry is kept |
| FieldRules.OnYearInput | app/UsersPage/page.js:415-420 | the year field stores the typed text upper-cased, of the same length, and validates it; the verdict is the one the typed text itself gets; a cleared error means the stored value is `Y1`-`Y4` |
| FieldRules.NameRule | app/UsersPage/page.js:63-64 | a name clears exactly when it has at least two characters of `[a-zA-ZÀ-ÿ'-]`; otherwise it gets its field's message |
| FieldRules.NameAdmitsMathSigns | app/UsersPage/page.js:63 | the Latin-1 range lets `×` and `÷` through as names |
| FieldRules.PhoneRule | app/UsersPage/page.js:66-68 | a phone clears exactly when it has ten characters, each a digit, whitespace, `-`, `(` or `)`; otherwise it gets the phone message |
| FieldRules.PhoneMessageDisagreesWithRule | app/UsersPage/page.js:96 | ten digits pass; nine and eleven digits are both refused with "at least 10 digits" |
| FieldRules.EmailPatternIffShape | app/UsersPage/page.js:70 | the email regex accepts exactly: no whitespace, one `@` that is not first, and a dot strictly inside the domain |
| FieldRules.EmailRule | app/UsersPage/page.js:70 | an email clears exactly when it has that shape; otherwise it gets the email message |
| FieldRules.YearRule | app/UsersPage/page.js:73 | a year clears exactly when it is `y` or `Y` followed by `1`-`4`; otherwise it gets the year message |
| FieldRules.YearVerdictIgnoresCase | app/UsersPage/page.js:415-419 | upper-casing before validation never changes the year verdict |
| FieldRules.PostalCodeIsOnlyRequired | app/UsersPage/page.js:76-88 | under the key the form uses, a postal code clears exactly when it is non-empty |
| FieldRules.PostalQuirkExample | app/UsersPage/page.js:76 | `"T2N 1N"` fails the Canadian pattern yet clears in the form; `"T2N 1N4"` and `"t2n1n4"` match the pattern |
| FieldRules.UnpatternedFieldsOnlyRequired | app/UsersPage/page.js:83-107 | program, address, city, province, country and postal code clear on any non-empty value, whitespace-only included |
| Records.BlankIsTrimmedEmpty | app/lib/students.js:69 | a value counts as blank exactly when it is missing, null, or `String(v).trim()` is `""` |
| Records.FirstBlank | app/lib/students.js:68-72 | none is found exactly when no key of the order is blank; a found key is blank and every key before it is not |
| Records.FirstBlankIndex | app/lib/students.js:68-72 | the scan stops at the first blank position, or at the end |
| Records.FirstBlankAt | app/lib/students.js:68-72 | a blank key with no blank key before it is the one reported |
| Records.CreateUser | app/lib/students.js:33-112 | the first blank required field is named and the table is unchanged; then a stored email is refused as a duplicate with the table unchanged; success exactly when neither happens, adding one row with the given values and keeping every other row; rows stay keyed by email |
| Records.Insert | app/lib/students.js:89-108 | the INSERT adds exactly one row under its email and keeps every other row |
| Records.CreateUserNames | app/lib/students.js:53-72 | `createUser` throws `Missing required field: k` for the first blank `k` of its order and leaves the table alone |
| Records.CreateUserStopsAtFirstName | app/lib/students.js:53-72 | a blank `first_name` is named first |
| Records.CreateUserStopsAtLastName | app/lib/students.js:53-72 | with `first_name` filled, a blank `last_name` is named |
| Records.CreateUserStopsAtEmail | app/lib/students.js:53-72 | with both names filled, a blank `email` is named |
| Records.CreateUserStopsAtPhone | app/lib/students.js:53-72 | with names and email filled, a blank `phone` is named |
| Records.GetStudentByEmail | app/lib/students.js:17-29 | returns a row exactly when the email is stored, that row, and a row with that email |
| Records.GetAllUsers | app/lib/students.js:7-14 | returns every stored row, only stored rows, as many as the table holds, with distinct emails |
| Records.CreateThenGet | app/lib/students.js:84-111 | after a successful create, looking its email up returns the inserted row |
| Records.CreateTwiceIsDuplicate | app/lib/students.js:78-86 | creating the same student again is refused as a duplicate and leaves the table as the first call left it |
| Records.PhotoDefaultsToNull | app/lib/students.js:49 | a complete object without `profile_picture_url` is stored with no photo |
| StudentsRoute.AsFields | app/api/students/route.js:11-39 | the required object has exactly the eleven required fields, each the submitted string, or null for an entry the form lacks |
| StudentsRoute.Post | app/api/students/route.js:5-84 | 400 naming the first blank field in the route's order, table unchanged; 500 with the fault's message or "Server error", table unchanged; 200 exactly when no field is blank and no fault occurs; on 200 the row from the form lands under its email, with no photo exactly when the URL is empty, and every other row is kept |
| StudentsRoute.Upsert | app/api/students/route.js:52-71 | the INSERT puts the row under its email and keeps every other row |
| StudentsRoute.RequiredCheckPrecedesDatabase | app/api/students/route.js:42-49 | when a field is blank the answer is a 400 that no database outcome can change |
| StudentsRoute.SameRequiredFields | app/api/students/route.js:27-39 | the route and `createUser` require the same eleven fields: one passes exactly when the other does |
| StudentsRoute.PhoneCheckedBeforeEmail | app/api/students/route.js:27-45 | with `phone` and `email` both blank, the route names `phone` and `createUser` names `email` |
| StudentsRoute.RouteStopsAtPhone | app/api/students/route.js:27-45 | with both names filled, a blank `phone` is the route's first blank field |
| StudentsRoute.NoDuplicateCheck | app/api/students/route.js:48-74 | a complete form whose email is stored is accepted by the route and refused by `createUser` |
| BlobSas.SigningRequest | app/api/blob-sas/route.js:20-38 | the token is scoped to this container and blob, with permissions `cw`, the given content type, and an expiry 600000 ms after now |
| BlobSas.IssueUploadUrl | app/api/blob-sas/route.js:9-48 | the public URL is `https://<account>.blob.core.windows.net/<container>/<uuid>-<filename>`; the upload URL is the public URL, a `?` and the signed token, so the public URL is a strict prefix |
| BlobSas.UploadUrlSplitsIntoPublicUrlAndToken | app/api/blob-sas/route.js:41-44 | when no piece holds a `?`, splitting the upload URL at its first `?` gives back the public URL and the token |
| BlobSas.FilenameWithQueryMarkSplitsEarly | app/api/blob-sas/route.js:20 | the filename is not encoded: one that holds a `?` moves the query boundary before the end of the public URL |
| Client.UploadToAzureBlob | app/UsersPage/page.js:120-153 | returns the public URL exactly when both replies are ok; a refused SAS request throws "Failed to get SAS URL" without a PUT; a refused PUT throws "Blob upload failed"; the PUT goes to the upload URL as a `BlockBlob` with the file's type or `application/octet-stream`; no student is written |
| Client.UploadAgainstRoute | app/components/StudentList.js:84-117 | served by the SAS route, a successful upload returns the blob's public URL, and its PUT goes to a URL that starts with it |
| UsersForm.CollectForm | app/UsersPage/page.js:462 | the posted form is the inputs plus the hidden `profile_picture_url`, which carries the page's `profilePicUrl` |
| UsersForm.Submit | app/UsersPage/page.js:180-201 | the POST is sent after everything sent before; the error clears exactly when the reply is ok; a refused POST shows the response text or "Saving student failed"; a rejected POST shows its message or "Something went wrong"; success pushes `/` and refreshes |
| UsersForm.HandleSubmit | app/UsersPage/page.js:158-202 | `uploading` ends false; no error exactly when the upload (if any) and the POST succeed; a failed upload sends no student request; otherwise the posted form carries the uploaded URL; a refused SAS request shows "Failed to get SAS URL", a refused blob PUT "Blob upload failed", a rejected request its message or "Something went wrong", and a failed POST the same text as `Submit`; navigation happens exactly on success |
| UsersForm.PostedAfter | app/UsersPage/page.js:169-183 | after a log with no student request, the first POST found is the one sent next |
| UsersForm.FirstSubmitWithoutPictureStoresNoPhoto | app/UsersPage/page.js:462 | a first submission without a picture posts the hidden field as `""`, which the route stores as no photo |
| StudentList.HandleDelete | app/components/StudentList.js:25-45 | a declined confirmation sends nothing and only clears the banner; a confirmed delete sends DELETE for that email; a refusal shows the response text; a rejection leaves the banner cleared; the list is refreshed exactly when a confirmed delete succeeds; edit state is untouched |
| StudentList.StartEdit | app/components/StudentList.js:48-54 | enters edit mode on the row's email with a copy of the row and clears the banner |
| StudentList.CancelEdit | app/components/StudentList.js:57-60 | leaves edit mode and keeps the banner |
| StudentList.SaveEdit | app/components/StudentList.js:63-81 | sends the edited copy to the edited email, or to `null` when none; a refusal keeps edit mode and shows the response text; a rejection keeps edit mode with the banner cleared and sends nothing more; success leaves edit mode; the list is refreshed exactly on success |
| StudentList.HandleReplacePhoto | app/components/StudentList.js:122-154 | no file changes nothing and sends nothing; otherwise `photoUploadingEmail` ends null; a failed upload writes no student and shows a non-empty message; a successful upload PUTs only the new public URL; the banner clears exactly when all three replies are ok, and otherwise shows the SAS or blob failure message, or the rejection's message or the save's response text, falling back to "Photo upload failed" |
| StudentList.ReplacePhotoAgainstRoute | app/components/StudentList.js:131-146 | served by the SAS route, a successful replacement sends the SAS request, the blob PUT, then a PUT of only the blob's public URL to the row, and refreshes, with the banner and upload marker cleared |
| StudentList.StartThenCancel | app/components/StudentList.js:48-60 | starting and then cancelling an edit leaves edit mode with the banner cleared |
| StudentList.StartThenSave | app/components/StudentList.js:48-81 | saving right after starting an edit sends the unchanged row to its own email; success leaves edit mode, refusal stays on that row |
| Actions.Run | app/lib/action.js:50-56 | the action throws what `createUser` throws and keeps its table; it revalidates and redirects exactly when `createUser` succeeds |
| Actions.StudentActionObject | app/lib/action.js:33-47 | the object has exactly the keys `first_name` and `email`, read from the form |
| Actions.StudentAction | app/lib/action.js:30-57 | always throws: `first_name` when it is blank, otherwise `last_name`; the table is unchanged and nothing follows |
| Actions.UserActionObject | app/lib/action.js:76-99 | the object has every required key except `phone`, each read from the form |
| Actions.UserAction | app/lib/action.js:74-104 | always throws: the first blank of `first_name`, `last_name` and `email`, otherwise `phone`; the table is unchanged and nothing follows |

## Left out

- The PUT and DELETE handlers of `/api/students/<email>`, and the merge-update they perform, are not part of this model. The list's side of those calls is modelled as requests, and their replies are inputs.
- `app/lib/database.js` is not part of this model. It holds the driver configuration and the memoised global pool. The table is passed as an explicit value.
- SQL specifics are left out: query text, column widths, and the collation. Email equality is plain string equality.
- The `createUser` check and its insert are not atomic. Requests are modelled one at a time, so that race is left out.
- Database faults inside `createUser` are left out. Its model always completes its insert.
- StudentsRoute.Post: on a complete form whose email is already stored, the model replaces the stored row. The table's unique constraint is not part of the visible code. With such a constraint the INSERT would fail with a 500; without one the table would hold two rows.
- StudentsRoute.Upsert: an INSERT of an email that is already stored replaces the stored row, for the same reason as on the line above.
- The route inserts into `dbo.students`, while the data-access layer reads `profile.dbo.students`. The model treats both as the same table.
- A `formData()` or `json()` parse failure is left out. So is a form entry that is a file rather than a string, such as the page's `profile_picture` input.
- Js.ToUpperAscii: upper-cases ASCII letters only. `toUpperCase` also maps other letters, and a few of them, such as `ß`, change the length. The year pattern that follows accepts ASCII letters only, so the verdict is the same either way.
- FieldRules.OnYearInput: the stored text keeps the typed length only because upper-casing is modelled on ASCII letters; in JavaScript `ß` becomes `SS`.
- Strings are sequences of code points. JavaScript counts UTF-16 code units, so a character outside the Basic Multilingual Plane would count once here where `{2,}` and `{10}` count it twice.
- FieldRules.Verdict: `null` (a cleared error) and `undefined` (a missing message) both appear as no entry value.
- `encodeURIComponent` on the delete/PUT target is left out. The route decodes it again. Only its `null` case is modelled.
- `confirm`, `console`, `router`, `URL.createObjectURL`, `crypto.randomUUID` and the clock are left out as effects. The confirmation answer, the UUID and the current time are parameters, and router calls are entries in the effect log.
- The Azure SDK signer is a function parameter. The token it returns is opaque.
- React's rendering and state batching are left out. A handler's state change is applied once, when the handler finishes.

=== FILE: actions.dfy ===
/** The two server actions that call `createUser`. Each builds an object
    from the submitted form that lacks a required field, so `createUser`
    always throws and neither action gets to revalidate or redirect. */
module Actions {
  import opened Js
  import opened Records

  /** A form value `createUser` treats as blank: absent, or all
      whitespace, which is what trims to "". */
  predicate FormBlank(fd: FormData, k: Key) {
    k !in fd || AllWhitespace(fd[k])
  }

  datatype ActionEffect = Revalidate(path: string) | Redirect(path: string)

  /** How an action ends: the error it throws (None when it completes),
      the table afterwards and what it did after `createUser`. */
  datatype ActionResult = ActionResult(thrown: Option<string>, db: Store, effects: seq<ActionEffect>)

  /** `await createUser(obj); revalidatePath("/form"); redirect("/")` */
  function Run(db: Store, obj: Fields): (r: ActionResult)
    ensures r.thrown == CreateUser(db, obj).thrown && r.db == CreateUser(db, obj).db
    ensures r.thrown.Some? <==> r.effects == []
    ensures r.thrown.None? ==> r.effects == [Revalidate("/form"), Redirect("/")]
  {
    var c := CreateUser(db, obj);
    if c.thrown.Some? then ActionResult(c.thrown, c.db, [])
    else ActionResult(None, c.db, [Revalidate("/form"), Redirect("/")])
  }

  /** The object `StudentAction` builds: `first_name` and `email` only. */
  function StudentActionObject(fd: FormData): (obj: Fields)
    ensures obj.Keys == {FirstName, Email}
    ensures obj[FirstName] == FormGet(fd, FirstName) && obj[Email] == FormGet(fd, Email)
  {
    map[FirstName := FormGet(fd, FirstName), Email := FormGet(fd, Email)]
  }

  /** `StudentAction` always fails: on `first_name` when it is blank, and
      otherwise on the `last_name` it never sends. */
  function StudentAction(db: Store, fd: FormData): (r: ActionResult)
    ensures r.thrown == Some(MissingFieldMessage(if FormBlank(fd, FirstName) then FirstName else LastName))
    ensures r.db == db && r.effects == []
  {
    var obj := StudentActionObject(fd);
    if FormBlank(fd, FirstName) then
      CreateUserStopsAtFirstName(db, obj);
      Run(db, obj)
    else
      CreateUserStopsAtLastName(db, obj);
      Run(db, obj)
  }

  /** The keys `UserAction` sends: every required field except `phone`. */
  const UserActionKeys: set<Key> := {
    FirstName, LastName, Email, StreetAddress, City,
    ProvinceState, Country, PostalCode, Program, Year
  }

  function UserActionObject(fd: FormData): (obj: Fields)
    ensures obj.Keys == UserActionKeys
    ensures forall k | k in obj :: obj[k] == FormGet(fd, k)
  {
    map k | k in UserActionKeys :: FormGet(fd, k)
  }

  /** `UserAction` always fails: on the first blank of `first_name`,
      `last_name` and `email`, and otherwise on the `phone` it never sends. */
  function UserAction(db: Store, fd: FormData): (r: ActionResult)
    ensures r.thrown == Some(MissingFieldMessage(
      if FormBlank(fd, FirstName) then FirstName
      else if FormBlank(fd, LastName) then LastName
      else if FormBlank(fd, Email) then Email
      else Phone))
    ensures r.db == db && r.effects == []
  {
    var obj := UserActionObject(fd);
    assert Phone !in obj;
    if FormBlank(fd, FirstName) then
      CreateUserStopsAtFirstName(db, obj);
      Run(db, obj)
    else if FormBlank(fd, LastName) then
      CreateUserStopsAtLastName(db, obj);
      Run(db, obj)
    else if FormBlank(fd, Email) then
      CreateUserStopsAtEmail(db, obj);
      Run(db, obj)
    else
      CreateUserStopsAtPhone(db, obj);
      Run(db, obj)
  }
}

=== FILE: blob_sas.dfy ===
/** `POST /api/blob-sas`: names a fresh blob, asks the storage SDK to sign
    a short-lived create/write token for it, and answers with the upload
    URL and the public URL. The random UUID, the clock and the signer are
    inputs. */
module BlobSas {

  /** The JSON body the client sends. */
  datatype SasRequestBody = SasRequestBody(filename: string, contentType: string)

  /** The storage account settings read from the environment. */
  datatype StorageConfig = StorageConfig(account: string, accountKey: string, container: string)

  /** The values handed to `generateBlobSASQueryParameters`. */
  datatype SignRequest = SignRequest(
    containerName: string,
    blobName: string,
    permissions: string,
    expiresOn: int,
    contentType: string)

  /** The JSON the handler answers with. */
  datatype SasReply = SasReply(uploadUrl: string, publicUrl: string)

  /** Ten minutes in milliseconds. */
  const SasLifetimeMs: int := 10 * 60 * 1000

  function BlobName(uuid: string, filename: string): string {
    uuid + "-" + filename
  }

  function PublicUrl(cfg: StorageConfig, blobName: string): string {
    "https://" + cfg.account + ".blob.core.windows.net/" + cfg.container + "/" + blobName
  }

  /** The signing request the handler builds for one blob. */
  function SigningRequest(body: SasRequestBody, cfg: StorageConfig, uuid: string, nowMs: int)
    : (q: SignRequest)
    ensures q.containerName == cfg.container
    ensures q.blobName == BlobName(uuid, body.filename)
    ensures q.permissions == "cw"
    ensures q.expiresOn - nowMs == SasLifetimeMs
    ensures q.contentType == body.contentType
  {
    SignRequest(cfg.container, BlobName(uuid, body.filename), "cw", nowMs + SasLifetimeMs, body.contentType)
  }

  /** The handler. `sign` stands for the SDK signer applied to the shared
      key credential (account name and key); its result is the token
      string. */
  function IssueUploadUrl(
    body: SasRequestBody, cfg: StorageConfig, uuid: string, nowMs: int,
    sign: (SignRequest, string, string) -> string): (r: SasReply)
    ensures |r.publicUrl| < |r.uploadUrl|
    ensures r.uploadUrl[..|r.publicUrl|] == r.publicUrl
    ensures r.uploadUrl[|r.publicUrl|] == '?'
    ensures r.uploadUrl[|r.publicUrl| + 1..] ==
      sign(SigningRequest(body, cfg, uuid, nowMs), cfg.account, cfg.accountKey)
    ensures r.publicUrl == PublicUrl(cfg, BlobName(uuid, body.filename))
  {
    var q := SigningRequest(body, cfg, uuid, nowMs);
    var sas := sign(q, cfg.account, cfg.accountKey);
    var publicUrl := PublicUrl(cfg, q.blobName);
    var uploadUrl := publicUrl + "?" + sas;
    assert uploadUrl[..|publicUrl|] == publicUrl;
    assert uploadUrl[|publicUrl| + 1..] == sas;
    SasReply(uploadUrl, publicUrl)
  }

  /** The position of the first `c` in `s`, or |s| when there is none. */
  function IndexOf(s: string, c: char): (i: nat)
    ensures i <= |s|
    ensures forall j | 0 <= j < i :: s[j] != c
    ensures i < |s| ==> s[i] == c
  {
    if |s| == 0 then 0
    else if s[0] == c then 0
    else 1 + IndexOf(s[1..], c)
  }

  /** Splits a URL at its first `?` into the resource part and the query,
      the way a storage service reads the upload URL. */
  function SplitQuery(url: string): (string, string) {
    var i := IndexOf(url, '?');
    if i == |url| then (url, "") else (url[..i], url[i + 1..])
  }

  /** When none of the pieces carries a `?`, the storage service reads the
      upload URL back as exactly the public URL and the signed token. */
  lemma {:induction false} UploadUrlSplitsIntoPublicUrlAndToken(
    body: SasRequestBody, cfg: StorageConfig, uuid: string, nowMs: int,
    sign: (SignRequest, string, string) -> string)
    requires '?' !in cfg.account && '?' !in cfg.container && '?' !in uuid && '?' !in body.filename
    ensures SplitQuery(IssueUploadUrl(body, cfg, uuid, nowMs, sign).uploadUrl) ==
      (IssueUploadUrl(body, cfg, uuid, nowMs, sign).publicUrl,
       sign(SigningRequest(body, cfg, uuid, nowMs), cfg.account, cfg.accountKey))
  {
    var r := IssueUploadUrl(body, cfg, uuid, nowMs, sign);
    var p := r.publicUrl;
    assert '?' !in p by {
      assert p == "https://" + cfg.account + ".blob.core.windows.net/" + cfg.container + "/"
        + (uuid + "-" + body.filename);
    }
    IndexOfPrefix(r.uploadUrl, p, '?');
  }

  /** The filename is not URL-encoded: one that holds a `?` moves the
      query boundary into the blob name, and the upload URL no longer
      reads back as the public URL. */
  lemma FilenameWithQueryMarkSplitsEarly(
    body: SasRequestBody, cfg: StorageConfig, uuid: string, nowMs: int,
    sign: (SignRequest, string, string) -> string)
    requires '?' in body.filename
    ensures SplitQuery(IssueUploadUrl(body, cfg, uuid, nowMs, sign).uploadUrl).0 !=
      IssueUploadUrl(body, cfg, uuid, nowMs, sign).publicUrl
  {
    var r := IssueUploadUrl(body, cfg, uuid, nowMs, sign);
    var p := r.publicUrl;
    var k :| 0 <= k < |body.filename| && body.filename[k] == '?';
    var pre := "https://" + cfg.account + ".blob.core.windows.net/" + cfg.container + "/" + uuid + "-";
    assert p == pre + body.filename;
    assert p[|pre| + k] == '?';
    assert r.uploadUrl[|pre| + k] == '?';
    var i := IndexOf(r.uploadUrl, '?');
    assert i <= |pre| + k < |p|;
  }

  /** The first `c` of `p + [c] + t` is at |p| when `p` has none. */
  lemma {:induction false} IndexOfPrefix(s: string, p: string, c: char)
    requires |p| < |s| && s[..|p|] == p && s[|p|] == c && c !in p
    ensures IndexOf(s, c) == |p|
  {
    assert forall j | 0 <= j < |p| :: s[j] == p[j] && p[j] != c;
  }
}

=== FILE: client.dfy ===
/** The browser side of the network: what a `fetch` can answer, the
    requests and navigation the pages issue, and `uploadToAzureBlob`, which
    the "Add Student" page and the student list define identically. */
module Client {
  import opened Js
  import opened Records
  import opened BlobSas

  /** How a `fetch` settles: a response with `ok` set and its parsed body,
      a response without `ok` and its text, or a rejected promise with the
      error's message. */
  datatype Reply<T> = Ok(body: T) | NotOk(text: string) | Rejected(message: string)

  /** A selected file: its name and its MIME type ("" when unknown). */
  datatype File = File(name: string, mimeType: string)

  /** The JSON body of a PUT to `/api/students/<email>`. */
  datatype PutBody = WholeRecord(record: Option<Student>) | PhotoOnly(profile_picture_url: string)

  datatype Request =
    | SasPost(sasBody: SasRequestBody)
    | BlobPut(url: string, blobType: string, contentType: string)
    | StudentPost(form: FormData)
    | StudentPut(target: string, putBody: PutBody)
    | StudentDelete(target: string)

  /** Everything a handler does that leaves the page's own state. */
  datatype Effect = Send(request: Request) | RouterPush(path: string) | RouterRefresh

  predicate WritesStudent(e: Effect) {
    e.Send? && (e.request.StudentPost? || e.request.StudentPut? || e.request.StudentDelete?)
  }

  predicate NoStudentWrite(effects: seq<Effect>) {
    forall i | 0 <= i < |effects| :: !WritesStudent(effects[i])
  }

  /** `file.type || "application/octet-stream"` */
  function ContentTypeOf(f: File): string {
    OrElse(f.mimeType, "application/octet-stream")
  }

  /** How `uploadToAzureBlob` ends: the public URL it returns, or the
      message of the error it throws; and the requests it sent. */
  datatype Upload = Upload(outcome: Outcome, sent: seq<Effect>)
  datatype Outcome = Returned(url: string) | Threw(message: string)

  /** The `x-ms-blob-type` header of the blob PUT. */
  const BlobType: string := "BlockBlob"

  const SasFailedMessage: string := "Failed to get SAS URL"
  const BlobFailedMessage: string := "Blob upload failed"

  /** `uploadToAzureBlob(file)` given how its two requests settle; the
      second reply is only consulted when the PUT is sent. */
  function UploadToAzureBlob(file: File, sas: Reply<SasReply>, put: Reply<()>): (u: Upload)
    ensures u.outcome.Returned? <==> sas.Ok? && put.Ok?
    ensures u.outcome.Returned? ==> u.outcome.url == sas.body.publicUrl
    ensures |u.sent| >= 1 && u.sent[0] == Send(SasPost(SasRequestBody(file.name, ContentTypeOf(file))))
    ensures !sas.Ok? ==> |u.sent| == 1
    ensures sas.NotOk? ==> u.outcome == Threw(SasFailedMessage)
    ensures sas.Ok? ==> u.sent == [u.sent[0], Send(BlobPut(sas.body.uploadUrl, BlobType, ContentTypeOf(file)))]
    ensures sas.Ok? && put.NotOk? ==> u.outcome == Threw(BlobFailedMessage)
    ensures NoStudentWrite(u.sent)
  {
    var ask := Send(SasPost(SasRequestBody(file.name, ContentTypeOf(file))));
    match sas
    case Rejected(m) => Upload(Threw(m), [ask])
    case NotOk(_) => Upload(Threw(SasFailedMessage), [ask])
    case Ok(reply) =>
      var sent := [ask, Send(BlobPut(reply.uploadUrl, BlobType, ContentTypeOf(file)))];
      match put
      case Rejected(m) => Upload(Threw(m), sent)
      case NotOk(_) => Upload(Threw(BlobFailedMessage), sent)
      case Ok(_) => Upload(Returned(reply.publicUrl), sent)
  }

  /** Served by the SAS route, a successful upload returns the public URL of
      the blob named after the UUID and the file, and its PUT goes to that
      URL plus the signed token. */
  lemma UploadAgainstRoute(
    file: File, cfg: StorageConfig, uuid: string, nowMs: int,
    sign: (SignRequest, string, string) -> string)
    ensures var reply := IssueUploadUrl(SasRequestBody(file.name, ContentTypeOf(file)), cfg, uuid, nowMs, sign);
      var u := UploadToAzureBlob(file, Ok(reply), Ok(()));
      && u.outcome == Returned(PublicUrl(cfg, BlobName(uuid, file.name)))
      && u.sent[1].request.url[..|u.outcome.url|] == u.outcome.url
      && u.sent[1].request.contentType == ContentTypeOf(file)
  {
  }
}

=== FILE: field_rules.dfy ===
/** The per-field validation of the "Add Student" form: the `patterns`
    table, the friendly `messages` table, and `validate`, which writes one
    entry of the form's `errors` map. */
module FieldRules {
  import opened Js

  /** The regular expressions of the `patterns` table. */
  datatype Pattern = NamePattern | PhonePattern | EmailPattern | YearPattern | PostalPattern

  /** Looks a field name up in `patterns`. The postal entry is keyed
      "postalcode", while the form validates under "postal_code". */
  function PatternFor(field: string): Option<Pattern> {
    if field == "first_name" || field == "last_name" then Some(NamePattern)
    else if field == "phone" then Some(PhonePattern)
    else if field == "email" then Some(EmailPattern)
    else if field == "year" then Some(YearPattern)
    else if field == "postalcode" then Some(PostalPattern)
    else None
  }

  /** Property names every plain object inherits from `Object.prototype`.
      For these, `patterns[field]` is a truthy value without a `test`
      method, so calling it throws and `validate` reports the fault. */
  const InheritedKeys: set<string> := {
    "constructor", "hasOwnProperty", "isPrototypeOf", "propertyIsEnumerable",
    "toLocaleString", "toString", "valueOf", "__proto__",
    "__defineGetter__", "__defineSetter__", "__lookupGetter__", "__lookupSetter__"
  }

  /** `[a-zA-ZÀ-ÿ'-]`. The Latin-1 range also holds the
      multiplication and division signs. */
  predicate NameChar(c: char) {
    IsAsciiLetter(c) || ('\U{00C0}' <= c <= '\U{00FF}') || c == '\'' || c == '-'
  }

  /** `[\d\s\-\(\)]` */
  predicate PhoneChar(c: char) {
    IsDigit(c) || IsWhitespace(c) || c == '-' || c == '(' || c == ')'
  }

  /** `[^\s@]` */
  predicate EmailChar(c: char) {
    !IsWhitespace(c) && c != '@'
  }

  /** `[^\s@]+` spanning exactly the positions lo .. hi-1 of s. */
  predicate EmailRun(s: string, lo: int, hi: int)
    requires 0 <= lo <= hi <= |s|
  {
    lo < hi && forall i | lo <= i < hi :: EmailChar(s[i])
  }

  /** `^[a-zA-ZÀ-ÿ'-]{2,}$` */
  predicate IsName(s: string) {
    |s| >= 2 && forall i | 0 <= i < |s| :: NameChar(s[i])
  }

  /** `^[\d\s\-\(\)]{10}$`: exactly ten characters. */
  predicate IsPhone(s: string) {
    |s| == 10 && forall i | 0 <= i < |s| :: PhoneChar(s[i])
  }

  /** `^[^\s@]+@[^\s@]+\.[^\s@]+$`, read as the split points a
      backtracking matcher may choose for `@` and for the literal dot. */
  predicate IsEmail(s: string) {
    exists at, dot | 0 <= at < dot < |s| ::
      && s[at] == '@' && s[dot] == '.'
      && EmailRun(s, 0, at) && EmailRun(s, at + 1, dot) && EmailRun(s, dot + 1, |s|)
  }

  /** `^y[1-4]$` with the `i` flag. */
  predicate IsYear(s: string) {
    |s| == 2 && (s[0] == 'y' || s[0] == 'Y') && '1' <= s[1] <= '4'
  }

  /** `^[A-Z]\d[A-Z]\s?\d[A-Z]\d$` with the `i` flag (without the `u` flag
      no non-ASCII letter folds onto A-Z). */
  predicate IsPostal(s: string) {
    || (|s| == 6 && IsAsciiLetter(s[0]) && IsDigit(s[1]) && IsAsciiLetter(s[2])
        && IsDigit(s[3]) && IsAsciiLetter(s[4]) && IsDigit(s[5]))
    || (|s| == 7 && IsAsciiLetter(s[0]) && IsDigit(s[1]) && IsAsciiLetter(s[2])
        && IsWhitespace(s[3])
        && IsDigit(s[4]) && IsAsciiLetter(s[5]) && IsDigit(s[6]))
  }

  predicate Matches(p: Pattern, s: string) {
    match p
    case NamePattern => IsName(s)
    case PhonePattern => IsPhone(s)
    case EmailPattern => IsEmail(s)
    case YearPattern => IsYear(s)
    case PostalPattern => IsPostal(s)
  }

  /** The `messages` table; a missing key reads as `undefined` (None). */
  function MessageFor(field: string): Option<string> {
    if field == "first_name" then Some("Please enter your first name.")
    else if field == "last_name" then Some("Please enter your last name.")
    else if field == "email" then Some("Please enter your email (e.g. example@example.com)")
    else if field == "program" then Some("Please enter your program.")
    else if field == "year" then Some("Please enter your year (e.g. Y1)")
    else if field == "phone" then Some("Phone number must be at least 10 digits.")
    else if field == "street_address" then Some("Please enter your address")
    else if field == "country" then Some("Please enter your country")
    else if field == "city" then Some("Please enter your city")
    else if field == "province_state" then Some("please select your province")
    else if field == "postal_code" then Some("Postal code must follow Canadian format (e.g., T2N 1N4).")
    else None
  }

  function RequiredMessage(field: string): string {
    field + " is required."
  }

  /** The entry `validate(field, value)` stores in `errors[field]`:
      a message, or None for `null` (cleared) and for `undefined`. */
  function Verdict(field: string, value: string): (r: Option<string>)
    ensures value == "" ==> r == Some(RequiredMessage(field))
    ensures value != "" && field in InheritedKeys ==> r == Some("Error validating " + field)
    ensures value != "" && field !in InheritedKeys && PatternFor(field).None? ==> r == None
    ensures value != "" && PatternFor(field).Some? && Matches(PatternFor(field).value, value) ==> r == None
  {
    if value == "" then Some(RequiredMessage(field))
    else if field in InheritedKeys then Some("Error validating " + field)
    else match PatternFor(field)
      case Some(p) => if Matches(p, value) then None else MessageFor(field)
      case None => None
  }

  /** `validate`: updates the entry for `field` and leaves every other key
      of the errors map as it was. */
  function Validate(errors: map<string, Option<string>>, field: string, value: string)
    : (r: map<string, Option<string>>)
    ensures r.Keys == errors.Keys + {field}
    ensures r[field] == Verdict(field, value)
    ensures forall k | k in errors && k != field :: r[k] == errors[k]
  {
    errors[field := Verdict(field, value)]
  }

  /** The year input's change handler: upper-cases the typed text, keeps it
      as the field's value and validates that value. */
  function OnYearInput(errors: map<string, Option<string>>, typed: string)
    : (r: (string, map<string, Option<string>>))
    ensures r.0 == ToUpperAscii(typed) && |r.0| == |typed|
    ensures r.1 == Validate(errors, "year", r.0)
    ensures r.1["year"] == Verdict("year", typed)
    ensures r.1["year"] == None ==> r.0[0] == 'Y' && '1' <= r.0[1] <= '4'
  {
    var value := ToUpperAscii(typed);
    YearVerdictIgnoresCase(typed);
    (value, Validate(errors, "year", value))
  }

  /** `first_name` and `last_name` pass exactly when they are at least two
      characters from the name class. */
  lemma NameRule(field: string, v: string)
    requires field == "first_name" || field == "last_name"
    ensures Verdict(field, v) == None <==> |v| >= 2 && forall i | 0 <= i < |v| :: NameChar(v[i])
    ensures v != "" && Verdict(field, v) != None ==> Verdict(field, v) == MessageFor(field)
  {
  }

  /** The Latin-1 range of the name class lets the multiplication and
      division signs through. */
  lemma NameAdmitsMathSigns()
    ensures Verdict("first_name", "\U{00D7}\U{00F7}") == None
    ensures Verdict("last_name", "A\U{00D7}") == None
  {
    assert NameChar('\U{00D7}') && NameChar('\U{00F7}');
  }

  /** `phone` passes exactly when it has ten characters, each a digit,
      whitespace, a dash or a parenthesis. */
  lemma PhoneRule(v: string)
    ensures Verdict("phone", v) == None <==> |v| == 10 && forall i | 0 <= i < |v| :: PhoneChar(v[i])
    ensures v != "" && Verdict("phone", v) != None ==>
      Verdict("phone", v) == Some("Phone number must be at least 10 digits.")
  {
  }

  /** The phone message promises "at least 10 digits", but eleven digits
      are refused with that very message. */
  lemma PhoneMessageDisagreesWithRule()
    ensures Verdict("phone", "1234567890") == None
    ensures Verdict("phone", "12345678901") == Some("Phone number must be at least 10 digits.")
    ensures Verdict("phone", "123456789") == Some("Phone number must be at least 10 digits.")
  {
  }

  /** The shape the email pattern accepts, stated without split points:
      no whitespace, exactly one `@` that is not first, and a dot after it
      that is neither the first nor the last character of the domain. */
  predicate EmailShape(s: string) {
    && (forall i | 0 <= i < |s| :: !IsWhitespace(s[i]))
    && exists at | 0 < at < |s| ::
         && s[at] == '@'
         && (forall i | 0 <= i < |s| && i != at :: s[i] != '@')
         && exists dot | at + 1 < dot < |s| - 1 :: s[dot] == '.'
  }

  lemma {:induction false} EmailPatternIffShape(s: string)
    ensures IsEmail(s) <==> EmailShape(s)
  {
    if IsEmail(s) {
      var at, dot :| 0 <= at < dot < |s| && s[at] == '@' && s[dot] == '.'
        && EmailRun(s, 0, at) && EmailRun(s, at + 1, dot) && EmailRun(s, dot + 1, |s|);
      forall i | 0 <= i < |s|
        ensures !IsWhitespace(s[i]) && (i != at ==> s[i] != '@')
      {
        if i < at {
          assert EmailChar(s[i]);
        } else if at < i < dot {
          assert EmailChar(s[i]);
        } else if dot < i {
          assert EmailChar(s[i]);
        }
      }
      assert at + 1 < dot < |s| - 1;
      assert EmailShape(s);
    }
    if EmailShape(s) {
      var at :| 0 < at < |s| && s[at] == '@'
        && (forall i | 0 <= i < |s| && i != at :: s[i] != '@')
        && exists dot | at + 1 < dot < |s| - 1 :: s[dot] == '.';
      var dot :| at + 1 < dot < |s| - 1 && s[dot] == '.';
      assert forall i | 0 <= i < |s| && i != at :: EmailChar(s[i]);
      assert EmailRun(s, 0, at) && EmailRun(s, at + 1, dot) && EmailRun(s, dot + 1, |s|);
      assert IsEmail(s);
    }
  }

  /** `email` passes exactly when it has the email shape. */
  lemma EmailRule(v: string)
    ensures Verdict("email", v) == None <==> EmailShape(v)
    ensures v != "" && !EmailShape(v) ==>
      Verdict("email", v) == Some("Please enter your email (e.g. example@example.com)")
  {
    EmailPatternIffShape(v);
  }

  /** `year` passes exactly when it is `y` or `Y` followed by 1-4. */
  lemma YearRule(v: string)
    ensures Verdict("year", v) == None <==> |v| == 2 && (v[0] == 'y' || v[0] == 'Y') && '1' <= v[1] <= '4'
    ensures v != "" && Verdict("year", v) != None ==> Verdict("year", v) == Some("Please enter your year (e.g. Y1)")
  {
  }

  /** Upper-casing in the input handler never changes the year verdict. */
  lemma {:induction false} YearVerdictIgnoresCase(v: string)
    ensures Verdict("year", ToUpperAscii(v)) == Verdict("year", v)
  {
    var u := ToUpperAscii(v);
    if |v| == 2 {
      assert u[0] == UpperChar(v[0]) && u[1] == UpperChar(v[1]);
      assert IsYear(u) <==> IsYear(v);
    }
    assert u == "" <==> v == "";
  }

  /** The form validates under "postal_code", which has no pattern: every
      non-empty value clears the error, even one the Canadian pattern
      refuses. */
  lemma PostalCodeIsOnlyRequired(v: string)
    ensures Verdict("postal_code", v) == None <==> v != ""
  {
  }

  /** A value the Canadian pattern would refuse passes in the form. */
  lemma PostalQuirkExample()
    ensures !IsPostal("T2N 1N") && Verdict("postal_code", "T2N 1N") == None
    ensures IsPostal("T2N 1N4") && IsPostal("t2n1n4")
  {
    assert IsAsciiLetter('t') && IsDigit('2') && IsAsciiLetter('n') && IsWhitespace(' ');
  }

  /** Fields with no pattern pass on any non-empty value, whitespace-only
      included. */
  lemma UnpatternedFieldsOnlyRequired(field: string, v: string)
    requires field in {"program", "street_address", "city", "province_state", "country", "postal_code"}
    ensures Verdict(field, v) == None <==> v != ""
    ensures v == "" ==> Verdict(field, v) == Some(field + " is required.")
  {
  }
}

=== FILE: js.dfy ===
/** The small part of the JavaScript runtime the application leans on:
    null/undefined, the whitespace class `\s`, `String.prototype.trim`,
    and upper-casing. */
module Js {

  datatype Option<+T> = None | Some(value: T) {
    function GetOr(default: T): T {
      match this
      case Some(v) => v
      case None => default
    }
  }

  /** A property value of a plain JavaScript object built by the application.
      A key that is not in the object's map reads as `undefined`. */
  datatype JsValue = Null | Str(s: string)

  /** The `||` operator on two strings: the left operand unless it is "". */
  function OrElse(s: string, fallback: string): string {
    if s == "" then fallback else s
  }

  /** ECMAScript WhiteSpace and LineTerminator code points: the class that
      `\s` matches and that `trim` removes. */
  predicate IsWhitespace(c: char) {
    || c == '\t' || c == '\n' || c == '\U{000B}' || c == '\U{000C}' || c == '\r'
    || c == ' ' || c == '\U{00A0}' || c == '\U{1680}'
    || ('\U{2000}' <= c <= '\U{200A}')
    || c == '\U{2028}' || c == '\U{2029}' || c == '\U{202F}' || c == '\U{205F}'
    || c == '\U{3000}' || c == '\U{FEFF}'
  }

  /** `\d`: ASCII digits only. */
  predicate IsDigit(c: char) {
    '0' <= c <= '9'
  }

  predicate IsAsciiLetter(c: char) {
    ('a' <= c <= 'z') || ('A' <= c <= 'Z')
  }

  predicate AllWhitespace(s: string) {
    forall i | 0 <= i < |s| :: IsWhitespace(s[i])
  }

  /** Drops leading whitespace: the result is the suffix of `s` that starts
      at its first non-whitespace character. */
  function TrimStart(s: string): (r: string)
    ensures |r| <= |s| && r == s[|s| - |r|..]
    ensures forall i | 0 <= i < |s| - |r| :: IsWhitespace(s[i])
    ensures r == [] || !IsWhitespace(r[0])
    ensures r == [] <==> AllWhitespace(s)
  {
    if |s| > 0 && IsWhitespace(s[0]) then TrimStart(s[1..]) else s
  }

  /** Drops trailing whitespace: the result is the prefix of `s` that ends
      at its last non-whitespace character. */
  function TrimEnd(s: string): (r: string)
    ensures |r| <= |s| && r == s[..|r|]
    ensures forall i | |r| <= i < |s| :: IsWhitespace(s[i])
    ensures r == [] || !IsWhitespace(r[|r| - 1])
    ensures r == [] <==> AllWhitespace(s)
  {
    if |s| > 0 && IsWhitespace(s[|s| - 1]) then TrimEnd(s[..|s| - 1]) else s
  }

  /** `String.prototype.trim`: a string trims to "" exactly when every
      character is whitespace. */
  function Trim(s: string): (r: string)
    ensures r == "" <==> AllWhitespace(s)
    ensures |r| <= |s|
  {
    TrimEnd(TrimStart(s))
  }

  function UpperChar(c: char): char {
    if 'a' <= c <= 'z' then (c as int - 32) as char else c
  }

  /** `String.prototype.toUpperCase` restricted to the ASCII letters. */
  function ToUpperAscii(s: string): (r: string)
    ensures |r| == |s|
    ensures forall i | 0 <= i < |s| :: !('a' <= r[i] <= 'z')
    ensures forall i | 0 <= i < |s| :: ('a' <= s[i] <= 'z') || r[i] == s[i]
    ensures forall i | 0 <= i < |s| && 'a' <= s[i] <= 'z' ::
      'A' <= r[i] <= 'Z' && r[i] as int + 32 == s[i] as int
  {
    seq(|s|, i requires 0 <= i < |s| => UpperChar(s[i]))
  }
}

=== FILE: records.dfy ===
/** The students table and the data-access layer over it: `getAllUsers`,
    `getStudentByEmail` and `createUser`. The table is a map keyed by
    email; requests are handled one at a time. */
module Records {
  import opened Js

  /** One row of the students table. */
  datatype Student = Student(
    first_name: string,
    last_name: string,
    email: string,
    phone: string,
    street_address: string,
    city: string,
    province_state: string,
    country: string,
    postal_code: string,
    program: string,
    year: string,
    profile_picture_url: Option<string>)

  type Store = map<string, Student>

  /** The property names `createUser` reads; any other property of its
      argument is ignored. */
  datatype Key =
    | FirstName | LastName | Email | Phone | StreetAddress | City
    | ProvinceState | Country | PostalCode | Program | Year | ProfilePictureUrl

  function KeyName(k: Key): string {
    match k
    case FirstName => "first_name"
    case LastName => "last_name"
    case Email => "email"
    case Phone => "phone"
    case StreetAddress => "street_address"
    case City => "city"
    case ProvinceState => "province_state"
    case Country => "country"
    case PostalCode => "postal_code"
    case Program => "program"
    case Year => "year"
    case ProfilePictureUrl => "profile_picture_url"
  }

  /** A plain JavaScript object passed to `createUser`, restricted to the
      properties it reads; an absent key reads as `undefined`. */
  type Fields = map<Key, JsValue>

  /** A submitted `FormData`, restricted to the string entries the
      application reads; `form.get(k)` is null for an absent key. */
  type FormData = map<Key, string>

  function FormGet(form: FormData, k: Key): JsValue {
    if k in form then Str(form[k]) else Null
  }

  /** Every row sits under its own email. */
  predicate KeyedByEmail(db: Store) {
    forall e | e in db :: db[e].email == e
  }

  /** The order in which `createUser` checks the required fields. */
  const CreateUserOrder: seq<Key> := [
    FirstName, LastName, Email, Phone, StreetAddress, City,
    ProvinceState, Country, PostalCode, Program, Year
  ]

  /** `!v || String(v).trim() === ""` on a property of a plain object,
      stated through the characters: a string trims to "" exactly when
      all of it is whitespace (see `BlankIsTrimmedEmpty`). */
  predicate Blank(obj: Fields, k: Key) {
    k !in obj || obj[k].Null? || AllWhitespace(obj[k].s)
  }

  /** `Blank` is the required check as written. */
  lemma BlankIsTrimmedEmpty(obj: Fields, k: Key)
    ensures Blank(obj, k) <==> k !in obj || obj[k].Null? || Trim(obj[k].s) == ""
  {
  }

  /** The first key of `order` whose value is blank, if any. */
  function FirstBlank(obj: Fields, order: seq<Key>): (r: Option<Key>)
    ensures r.None? <==> forall i | 0 <= i < |order| :: !Blank(obj, order[i])
    ensures r.Some? ==> exists i | 0 <= i < |order| ::
      order[i] == r.value && Blank(obj, order[i]) && forall j | 0 <= j < i :: !Blank(obj, order[j])
  {
    var i := FirstBlankIndex(obj, order, 0);
    if i == |order| then None else Some(order[i])
  }

  /** The position of the first blank key of `order` at or after `from`,
      or |order| when there is none. */
  function FirstBlankIndex(obj: Fields, order: seq<Key>, from: nat): (i: nat)
    requires from <= |order|
    ensures from <= i <= |order|
    ensures forall j | from <= j < i :: !Blank(obj, order[j])
    ensures i < |order| ==> Blank(obj, order[i])
    decreases |order| - from
  {
    if from == |order| || Blank(obj, order[from]) then from
    else FirstBlankIndex(obj, order, from + 1)
  }

  /** The first blank key is determined by position: a blank key with no
      blank key before it is the answer. */
  lemma FirstBlankAt(obj: Fields, order: seq<Key>, i: int)
    requires 0 <= i < |order| && Blank(obj, order[i])
    requires forall j | 0 <= j < i :: !Blank(obj, order[j])
    ensures FirstBlank(obj, order) == Some(order[i])
  {
    var k := FirstBlankIndex(obj, order, 0);
    assert k <= i;
  }

  function MissingFieldMessage(k: Key): string {
    "Missing required field: " + KeyName(k)
  }

  const DuplicateEmailMessage: string := "Student with this email already exists"

  function Text(obj: Fields, k: Key): string {
    if k in obj && obj[k].Str? then obj[k].s else ""
  }

  /** The row `createUser` inserts: the given field values, with
      `profile_picture_url` null unless the object carries a string. */
  function RowOf(obj: Fields): Student {
    Student(
      Text(obj, FirstName), Text(obj, LastName), Text(obj, Email),
      Text(obj, Phone), Text(obj, StreetAddress), Text(obj, City),
      Text(obj, ProvinceState), Text(obj, Country), Text(obj, PostalCode),
      Text(obj, Program), Text(obj, Year),
      if ProfilePictureUrl in obj && obj[ProfilePictureUrl].Str?
      then Some(obj[ProfilePictureUrl].s) else None)
  }

  /** What `createUser` leaves behind: the error it threw (None when it
      returned `{ ok: true }`) and the table afterwards. */
  datatype CreateResult = CreateResult(thrown: Option<string>, db: Store)

  /** `createUser`: the required check in a fixed order, then the duplicate
      check, then one insert. */
  function CreateUser(db: Store, obj: Fields): (r: CreateResult)
    ensures FirstBlank(obj, CreateUserOrder).Some? ==>
      r == CreateResult(Some(MissingFieldMessage(FirstBlank(obj, CreateUserOrder).value)), db)
    ensures FirstBlank(obj, CreateUserOrder).None? && Text(obj, Email) in db ==>
      r == CreateResult(Some(DuplicateEmailMessage), db)
    ensures r.thrown.None? <==> FirstBlank(obj, CreateUserOrder).None? && Text(obj, Email) !in db
    ensures r.thrown.None? ==>
      && r.db.Keys == db.Keys + {Text(obj, Email)}
      && |r.db| == |db| + 1
      && r.db[Text(obj, Email)] == RowOf(obj)
      && forall e | e in db :: r.db[e] == db[e]
    ensures KeyedByEmail(db) ==> KeyedByEmail(r.db)
  {
    match FirstBlank(obj, CreateUserOrder)
    case Some(k) => CreateResult(Some(MissingFieldMessage(k)), db)
    case None =>
      var email := Text(obj, Email);
      if email in db then CreateResult(Some(DuplicateEmailMessage), db)
      else CreateResult(None, Insert(db, RowOf(obj)))
  }

  /** The INSERT statement: one new row, every other row untouched. */
  function Insert(db: Store, row: Student): (r: Store)
    requires row.email !in db
    ensures r.Keys == db.Keys + {row.email}
    ensures |r| == |db| + 1
    ensures r[row.email] == row
    ensures forall e | e in db :: r[e] == db[e]
    ensures KeyedByEmail(db) ==> KeyedByEmail(r)
  {
    db[row.email := row]
  }

  /** `createUser` names the first blank field in its order and leaves the
      table alone. */
  lemma CreateUserNames(db: Store, obj: Fields, i: nat)
    requires i < |CreateUserOrder| && Blank(obj, CreateUserOrder[i])
    requires forall j | 0 <= j < i :: !Blank(obj, CreateUserOrder[j])
    ensures CreateUser(db, obj) == CreateResult(Some(MissingFieldMessage(CreateUserOrder[i])), db)
  {
    FirstBlankAt(obj, CreateUserOrder, i);
  }

  /** The first four steps of the required check, one lemma each. */
  lemma CreateUserStopsAtFirstName(db: Store, obj: Fields)
    requires Blank(obj, FirstName)
    ensures CreateUser(db, obj) == CreateResult(Some(MissingFieldMessage(FirstName)), db)
  {
    assert CreateUserOrder[0] == FirstName;
    CreateUserNames(db, obj, 0);
  }

  lemma CreateUserStopsAtLastName(db: Store, obj: Fields)
    requires !Blank(obj, FirstName) && Blank(obj, LastName)
    ensures CreateUser(db, obj) == CreateResult(Some(MissingFieldMessage(LastName)), db)
  {
    assert CreateUserOrder[0] == FirstName && CreateUserOrder[1] == LastName;
    assert forall j | 0 <= j < 1 :: !Blank(obj, CreateUserOrder[j]);
    CreateUserNames(db, obj, 1);
  }

  lemma CreateUserStopsAtEmail(db: Store, obj: Fields)
    requires !Blank(obj, FirstName) && !Blank(obj, LastName) && Blank(obj, Email)
    ensures CreateUser(db, obj) == CreateResult(Some(MissingFieldMessage(Email)), db)
  {
    assert CreateUserOrder[0] == FirstName && CreateUserOrder[1] == LastName && CreateUserOrder[2] == Email;
    CreateUserNames(db, obj, 2);
  }

  lemma CreateUserStopsAtPhone(db: Store, obj: Fields)
    requires !Blank(obj, FirstName) && !Blank(obj, LastName) && !Blank(obj, Email) && Blank(obj, Phone)
    ensures CreateUser(db, obj) == CreateResult(Some(MissingFieldMessage(Phone)), db)
  {
    var order := CreateUserOrder;
    assert order[0] == FirstName && order[1] == LastName && order[2] == Email && order[3] == Phone;
    var i := FirstBlankIndex(obj, order, 0);
    assert i <= 3;
    assert i != 0 && i != 1 && i != 2;
    FirstBlankAt(obj, order, 3);
  }

  /** `getStudentByEmail`: the row stored under `email`, or null. */
  function GetStudentByEmail(db: Store, email: string): (r: Option<Student>)
    ensures r.Some? <==> email in db
    ensures r.Some? ==> r.value == db[email]
    ensures r.Some? && KeyedByEmail(db) ==> r.value.email == email
  {
    if email in db then Some(db[email]) else None
  }

  /** `getAllUsers`: every row of the table once, in an order the database
      chooses. */
  method GetAllUsers(db: Store) returns (rows: seq<Student>)
    ensures |rows| == |db|
    ensures forall e | e in db :: db[e] in rows
    ensures forall i | 0 <= i < |rows| :: rows[i] in db.Values
    ensures KeyedByEmail(db) ==>
      forall i, j | 0 <= i < j < |rows| :: rows[i].email != rows[j].email
  {
    rows := [];
    var left := db.Keys;
    while left != {}
      invariant left <= db.Keys
      invariant |rows| + |left| == |db|
      invariant forall e | e in db.Keys - left :: db[e] in rows
      invariant forall i | 0 <= i < |rows| :: rows[i] in db.Values
      invariant KeyedByEmail(db) ==> forall i | 0 <= i < |rows| :: rows[i].email in db.Keys - left
      invariant KeyedByEmail(db) ==>
        forall i, j | 0 <= i < j < |rows| :: rows[i].email != rows[j].email
      decreases |left|
    {
      var e :| e in left;
      rows := rows + [db[e]];
      left := left - {e};
    }
  }

  /** After a successful `createUser`, looking its email up returns the
      inserted row. */
  lemma CreateThenGet(db: Store, obj: Fields)
    requires CreateUser(db, obj).thrown.None?
    ensures GetStudentByEmail(CreateUser(db, obj).db, Text(obj, Email)) == Some(RowOf(obj))
    ensures RowOf(obj).email == Text(obj, Email)
  {
  }

  /** Creating the same student twice: the second call is refused as a
      duplicate and leaves the table as the first call left it. */
  lemma CreateTwiceIsDuplicate(db: Store, obj: Fields)
    requires CreateUser(db, obj).thrown.None?
    ensures CreateUser(CreateUser(db, obj).db, obj) ==
      CreateResult(Some(DuplicateEmailMessage), CreateUser(db, obj).db)
  {
  }

  /** `profile_picture_url` is optional: a complete object without it is
      inserted with no photo. */
  lemma PhotoDefaultsToNull(db: Store, obj: Fields)
    requires ProfilePictureUrl !in obj
    requires CreateUser(db, obj).thrown.None?
    ensures CreateUser(db, obj).db[Text(obj, Email)].profile_picture_url == None
  {
  }
}

=== FILE: student_list.dfy ===
/** The student list's handlers: delete, enter/leave edit mode, save an
    edit, and replace a photo. Each is a function from the component state
    (and how the requests it sends settle) to the new state and the effects. */
module StudentList {
  import opened Js
  import opened Records
  import opened Client
  import opened BlobSas

  datatype ListState = ListState(
    editingEmail: Option<string>,
    editForm: Option<Student>,
    photoUploadingEmail: Option<string>,
    errorMsg: Option<string>)

  predicate Editing(st: ListState) {
    st.editingEmail.Some? && st.editForm.Some?
  }

  /** The path segment for a route parameter: `encodeURIComponent(null)` is
      "null". The percent-encoding itself is undone by the route and is not
      modelled. */
  function Target(email: Option<string>): string {
    email.GetOr("null")
  }

  /** `handleDelete(email)`, given the user's answer to the confirmation and
      how the DELETE settles. */
  function HandleDelete(st: ListState, email: string, confirmed: bool, reply: Reply<()>)
    : (r: (ListState, seq<Effect>))
    ensures r.0.editingEmail == st.editingEmail && r.0.editForm == st.editForm
    ensures r.0.photoUploadingEmail == st.photoUploadingEmail
    ensures !confirmed ==> r == (st.(errorMsg := None), [])
    ensures confirmed ==> |r.1| >= 1 && r.1[0] == Send(StudentDelete(email))
    ensures confirmed && reply.NotOk? ==> r.0.errorMsg == Some(reply.text) && |r.1| == 1
    ensures confirmed && reply.Ok? ==> r.0.errorMsg == None && r.1 == [r.1[0], RouterRefresh]
    ensures reply.Rejected? ==> r.0.errorMsg == None
    ensures (RouterRefresh in r.1) <==> confirmed && reply.Ok?
  {
    var cleared := st.(errorMsg := None);
    if !confirmed then (cleared, [])
    else
      var sent := [Send(StudentDelete(email))];
      match reply
      case NotOk(text) => (cleared.(errorMsg := Some(text)), sent)
      case Ok(_) => (cleared, sent + [RouterRefresh])
      case Rejected(_) => (cleared, sent)
  }

  /** `startEdit(student)`: edit mode on a copy of the row. */
  function StartEdit(st: ListState, s: Student): (r: ListState)
    ensures Editing(r) && r.editingEmail.value == s.email && r.editForm.value == s
    ensures r.errorMsg == None && r.photoUploadingEmail == st.photoUploadingEmail
  {
    st.(errorMsg := None, editingEmail := Some(s.email), editForm := Some(s))
  }

  /** `cancelEdit()`: leaves edit mode; the error banner is kept. */
  function CancelEdit(st: ListState): (r: ListState)
    ensures r.editingEmail.None? && r.editForm.None?
    ensures r.errorMsg == st.errorMsg && r.photoUploadingEmail == st.photoUploadingEmail
  {
    st.(editingEmail := None, editForm := None)
  }

  /** `saveEdit()`: sends the edited copy to the row being edited. A
      refusal keeps edit mode and shows the response text; success leaves
      edit mode. */
  function SaveEdit(st: ListState, reply: Reply<()>): (r: (ListState, seq<Effect>))
    ensures |r.1| >= 1 && r.1[0] == Send(StudentPut(Target(st.editingEmail), WholeRecord(st.editForm)))
    ensures reply.NotOk? ==>
      r.0 == st.(errorMsg := Some(reply.text)) && |r.1| == 1
    ensures reply.Ok? ==>
      r.0.editingEmail.None? && r.0.editForm.None? && r.0.errorMsg == None
      && r.1 == [r.1[0], RouterRefresh]
    ensures !reply.Ok? ==> r.0.editingEmail == st.editingEmail && r.0.editForm == st.editForm
    ensures r.0.photoUploadingEmail == st.photoUploadingEmail
    ensures reply.Rejected? ==> r.0 == st.(errorMsg := None) && |r.1| == 1
    ensures (RouterRefresh in r.1) <==> reply.Ok?
  {
    var cleared := st.(errorMsg := None);
    var sent := [Send(StudentPut(Target(st.editingEmail), WholeRecord(st.editForm)))];
    match reply
    case NotOk(text) => (cleared.(errorMsg := Some(text)), sent)
    case Ok(_) => (CancelEdit(cleared), sent + [RouterRefresh])
    case Rejected(_) => (cleared, sent)
  }

  /** `handleReplacePhoto(email, file)`: upload, then store only the new URL
      on the row. */
  function HandleReplacePhoto(
    st: ListState, email: string, file: Option<File>,
    sas: Reply<SasReply>, put: Reply<()>, save: Reply<()>): (r: (ListState, seq<Effect>))
    ensures file.None? ==> r == (st, [])
    ensures r.0.photoUploadingEmail.None? || r == (st, [])
    ensures r.0.editingEmail == st.editingEmail && r.0.editForm == st.editForm
    ensures file.Some? && !(sas.Ok? && put.Ok?) ==>
      NoStudentWrite(r.1) && r.0.errorMsg.Some? && r.0.errorMsg.value != ""
    ensures file.Some? && sas.Ok? && put.Ok? ==>
      |r.1| >= 3 && r.1[2] == Send(StudentPut(email, PhotoOnly(sas.body.publicUrl)))
    ensures file.Some? ==> (r.0.errorMsg.None? <==> sas.Ok? && put.Ok? && save.Ok?)
    ensures file.Some? && sas.NotOk? ==> r.0.errorMsg == Some(SasFailedMessage)
    ensures file.Some? && sas.Ok? && put.NotOk? ==> r.0.errorMsg == Some(BlobFailedMessage)
    ensures file.Some? && sas.Rejected? ==> r.0.errorMsg == Some(OrElse(sas.message, "Photo upload failed"))
    ensures file.Some? && sas.Ok? && put.Rejected? ==>
      r.0.errorMsg == Some(OrElse(put.message, "Photo upload failed"))
    ensures file.Some? && sas.Ok? && put.Ok? && save.NotOk? ==>
      r.0.errorMsg == Some(OrElse(save.text, "Photo upload failed"))
    ensures file.Some? && sas.Ok? && put.Ok? && save.Rejected? ==>
      r.0.errorMsg == Some(OrElse(save.message, "Photo upload failed"))
  {
    match file
    case None => (st, [])
    case Some(f) =>
      var u := UploadToAzureBlob(f, sas, put);
      match u.outcome
      case Threw(m) =>
        (st.(errorMsg := Some(OrElse(m, "Photo upload failed")), photoUploadingEmail := None), u.sent)
      case Returned(url) =>
        var sent := u.sent + [Send(StudentPut(email, PhotoOnly(url)))];
        match save
        case Ok(_) => (st.(errorMsg := None, photoUploadingEmail := None), sent + [RouterRefresh])
        case NotOk(text) =>
          (st.(errorMsg := Some(OrElse(text, "Photo upload failed")), photoUploadingEmail := None), sent)
        case Rejected(m) =>
          (st.(errorMsg := Some(OrElse(m, "Photo upload failed")), photoUploadingEmail := None), sent)
  }

  /** Cancelling right after starting an edit leaves edit mode with the
      banner cleared, whatever state came before. */
  lemma StartThenCancel(st: ListState, s: Student)
    ensures CancelEdit(StartEdit(st, s)) == st.(editingEmail := None, editForm := None, errorMsg := None)
  {
  }

  /** Saving right after starting an edit sends the unchanged row to its own
      email; success leaves edit mode, refusal stays in it on that row. */
  lemma StartThenSave(st: ListState, s: Student, reply: Reply<()>)
    ensures var r := SaveEdit(StartEdit(st, s), reply);
      && r.1[0] == Send(StudentPut(s.email, WholeRecord(Some(s))))
      && (reply.Ok? ==> !Editing(r.0))
      && (!reply.Ok? ==> Editing(r.0) && r.0.editingEmail == Some(s.email) && r.0.editForm == Some(s))
  {
  }

  /** Served by the SAS route, a successful photo replacement stores on the
      row exactly the public URL of the blob named after the UUID and the
      file, and refreshes the list. */
  lemma ReplacePhotoAgainstRoute(
    st: ListState, email: string, file: File, cfg: StorageConfig, uuid: string, nowMs: int,
    sign: (SignRequest, string, string) -> string)
    ensures var reply := IssueUploadUrl(SasRequestBody(file.name, ContentTypeOf(file)), cfg, uuid, nowMs, sign);
      var r := HandleReplacePhoto(st, email, Some(file), Ok(reply), Ok(()), Ok(()));
      && r.1 == [
           Send(SasPost(SasRequestBody(file.name, ContentTypeOf(file)))),
           Send(BlobPut(reply.uploadUrl, BlobType, ContentTypeOf(file))),
           Send(StudentPut(email, PhotoOnly(PublicUrl(cfg, BlobName(uuid, file.name))))),
           RouterRefresh]
      && r.0 == st.(errorMsg := None, photoUploadingEmail := None)
  {
  }
}

=== FILE: students_route.dfy ===
/** `POST /api/students`: reads the multipart form, checks the required
    fields, and inserts one row. Unlike `createUser` it checks `phone`
    before `email` and has no duplicate-email check. */
module StudentsRoute {
  import opened Js
  import opened Records

  /** The order in which the handler checks the required fields. */
  const RouteOrder: seq<Key> := [
    FirstName, LastName, Phone, Email, StreetAddress, City,
    ProvinceState, Country, PostalCode, Program, Year
  ]

  datatype Body = Plain(text: string) | OkJson
  datatype Response = Response(status: int, body: Body)
  datatype PostResult = PostResult(response: Response, db: Store)

  /** The `required` object the handler builds from `form.get`: one
      property per required field, null for an entry the form lacks. */
  function AsFields(form: FormData): (obj: Fields)
    ensures obj.Keys == RequiredKeys
    ensures forall k | k in obj :: obj[k] == FormGet(form, k)
  {
    map k | k in RequiredKeys :: FormGet(form, k)
  }

  /** Every field the handler requires: all but the photo URL. */
  const RequiredKeys: set<Key> := {
    FirstName, LastName, Phone, Email, StreetAddress, City,
    ProvinceState, Country, PostalCode, Program, Year
  }

  function Get(form: FormData, k: Key): string {
    if k in form then form[k] else ""
  }

  /** The row the handler inserts; `form.get("profile_picture_url") || null`
      turns an absent or empty URL into null. */
  function RowOfForm(form: FormData): Student {
    Student(
      Get(form, FirstName), Get(form, LastName), Get(form, Email),
      Get(form, Phone), Get(form, StreetAddress), Get(form, City),
      Get(form, ProvinceState), Get(form, Country), Get(form, PostalCode),
      Get(form, Program), Get(form, Year),
      if Get(form, ProfilePictureUrl) == "" then None
      else Some(Get(form, ProfilePictureUrl)))
  }

  /** The handler. `fault` is the error, if any, that the connection pool or
      the INSERT throws, given by its message. */
  function Post(db: Store, form: FormData, fault: Option<string>): (r: PostResult)
    ensures FirstBlank(AsFields(form), RouteOrder).Some? ==>
      r == PostResult(
        Response(400, Plain(MissingFieldMessage(FirstBlank(AsFields(form), RouteOrder).value))), db)
    ensures FirstBlank(AsFields(form), RouteOrder).None? && fault.Some? ==>
      r == PostResult(Response(500, Plain(OrElse(fault.value, "Server error"))), db)
    ensures r.response.status == 200 <==>
      FirstBlank(AsFields(form), RouteOrder).None? && fault.None?
    ensures r.response.status == 200 ==>
      var e := Get(form, Email);
      && r.response.body == OkJson
      && r.db.Keys == db.Keys + {e}
      && r.db[e] == RowOfForm(form)
      && (r.db[e].profile_picture_url == None <==> Get(form, ProfilePictureUrl) == "")
      && (forall k | k in db && k != e :: r.db[k] == db[k])
      && (e !in db ==> |r.db| == |db| + 1)
    ensures r.response.status != 200 ==> r.db == db
    ensures KeyedByEmail(db) ==> KeyedByEmail(r.db)
  {
    match FirstBlank(AsFields(form), RouteOrder)
    case Some(k) => PostResult(Response(400, Plain(MissingFieldMessage(k))), db)
    case None =>
      match fault
      case Some(m) => PostResult(Response(500, Plain(OrElse(m, "Server error"))), db)
      case None =>
        PostResult(Response(200, OkJson), Upsert(db, RowOfForm(form)))
  }

  /** The INSERT as the map sees it: the row lands under its email and every
      other row is untouched. */
  function Upsert(db: Store, row: Student): (r: Store)
    ensures r.Keys == db.Keys + {row.email}
    ensures r[row.email] == row
    ensures forall k | k in db && k != row.email :: r[k] == db[k]
    ensures row.email !in db ==> |r| == |db| + 1
    ensures KeyedByEmail(db) ==> KeyedByEmail(r)
  {
    db[row.email := row]
  }

  /** The required check runs before the pool is touched: when it fails the
      answer does not depend on the database at all. */
  lemma RequiredCheckPrecedesDatabase(db: Store, form: FormData, f1: Option<string>, f2: Option<string>)
    requires FirstBlank(AsFields(form), RouteOrder).Some?
    ensures Post(db, form, f1) == Post(db, form, f2)
    ensures Post(db, form, f1).response.status == 400
  {
  }

  /** Both checks require the same eleven fields; only their order differs. */
  lemma {:induction false} SameRequiredFields(obj: Fields)
    ensures FirstBlank(obj, RouteOrder).None? <==> FirstBlank(obj, CreateUserOrder).None?
  {
    assert forall i | 0 <= i < |RouteOrder| :: RouteOrder[i] in CreateUserOrder;
    assert forall i | 0 <= i < |CreateUserOrder| :: CreateUserOrder[i] in RouteOrder;
  }

  /** With both `phone` and `email` blank, the handler names `phone` and
      `createUser` names `email`. */
  lemma PhoneCheckedBeforeEmail(db: Store, form: FormData)
    requires !Blank(AsFields(form), FirstName) && !Blank(AsFields(form), LastName)
    requires Blank(AsFields(form), Phone) && Blank(AsFields(form), Email)
    ensures Post(db, form, None).response == Response(400, Plain(MissingFieldMessage(Phone)))
    ensures CreateUser(db, AsFields(form)).thrown == Some(MissingFieldMessage(Email))
  {
    RouteStopsAtPhone(AsFields(form));
    CreateUserStopsAtEmail(db, AsFields(form));
  }

  lemma RouteStopsAtPhone(obj: Fields)
    requires !Blank(obj, FirstName) && !Blank(obj, LastName) && Blank(obj, Phone)
    ensures FirstBlank(obj, RouteOrder) == Some(Phone)
  {
    assert RouteOrder[0] == FirstName && RouteOrder[1] == LastName && RouteOrder[2] == Phone;
    FirstBlankAt(obj, RouteOrder, 2);
  }

  /** No duplicate check: a complete form whose email is already stored is
      accepted, where `createUser` refuses the same fields. */
  lemma NoDuplicateCheck(db: Store, form: FormData)
    requires FirstBlank(AsFields(form), RouteOrder).None?
    requires Get(form, Email) in db
    ensures Post(db, form, None).response == Response(200, OkJson)
    ensures CreateUser(db, AsFields(form)).thrown == Some(DuplicateEmailMessage)
  {
    var obj := AsFields(form);
    SameRequiredFields(obj);
    assert Text(obj, Email) == Get(form, Email);
  }
}

=== FILE: users_form.dfy ===
/** The "Add Student" page's submit handler: upload the chosen picture
    first (if any), then post the form to `/api/students`. */
module UsersForm {
  import opened Js
  import opened Client
  import opened BlobSas
  import Records
  import StudentsRoute

  /** The page state the handler touches. */
  datatype FormState = FormState(uploading: bool, uploadError: Option<string>, profilePicUrl: string)

  const InitialForm: FormState := FormState(false, None, "")

  /** What the browser's `FormData` collects: the text inputs and the hidden
      `profile_picture_url` field, which carries `profilePicUrl`. */
  function CollectForm(inputs: Records.FormData, st: FormState): (form: Records.FormData)
    ensures form.Keys == inputs.Keys + {Records.ProfilePictureUrl}
    ensures form[Records.ProfilePictureUrl] == st.profilePicUrl
    ensures forall k | k in inputs && k != Records.ProfilePictureUrl :: form[k] == inputs[k]
  {
    inputs[Records.ProfilePictureUrl := st.profilePicUrl]
  }

  /** The form posted by a run of the handler, if it posted one. */
  function Posted(effects: seq<Effect>): Option<Records.FormData> {
    if |effects| == 0 then None
    else if effects[0].Send? && effects[0].request.StudentPost? then Some(effects[0].request.form)
    else Posted(effects[1..])
  }

  /** The POST and what follows it. */
  function Submit(st: FormState, form: Records.FormData, post: Reply<()>, before: seq<Effect>)
    : (r: (FormState, seq<Effect>))
    ensures !r.0.uploading && r.0.profilePicUrl == st.profilePicUrl
    ensures |r.1| > |before| && r.1[..|before|] == before
    ensures r.1[|before|] == Send(StudentPost(form))
    ensures r.0.uploadError.None? <==> post.Ok?
    ensures r.0.uploadError.Some? ==> r.0.uploadError.value != "" && |r.1| == |before| + 1
    ensures post.Ok? ==> r.1[|before| + 1..] == [RouterPush("/"), RouterRefresh]
    ensures post.NotOk? ==> r.0.uploadError == Some(OrElse(post.text, "Saving student failed"))
    ensures post.Rejected? ==> r.0.uploadError == Some(OrElse(post.message, "Something went wrong"))
  {
    var sent := before + [Send(StudentPost(form))];
    match post
    case Ok(_) => (FormState(false, None, st.profilePicUrl), sent + [RouterPush("/"), RouterRefresh])
    case NotOk(text) =>
      (FormState(false, Some(OrElse(text, "Saving student failed")), st.profilePicUrl), sent)
    case Rejected(m) =>
      (FormState(false, Some(OrElse(m, "Something went wrong")), st.profilePicUrl), sent)
  }

  /** `handleSubmit`, given how each request it may send settles. */
  function HandleSubmit(
    st: FormState, inputs: Records.FormData, picture: Option<File>,
    sas: Reply<SasReply>, put: Reply<()>, post: Reply<()>): (r: (FormState, seq<Effect>))
    ensures !r.0.uploading
    ensures var uploaded := picture.None? || (sas.Ok? && put.Ok?);
      && (r.0.uploadError.None? <==> uploaded && post.Ok?)
      && (!uploaded ==> NoStudentWrite(r.1))
      && (uploaded ==> Posted(r.1) == Some(CollectForm(inputs, r.0)))
    ensures r.0.uploadError.Some? ==> r.0.uploadError.value != ""
    ensures picture.Some? && sas.Ok? && put.Ok? ==> r.0.profilePicUrl == sas.body.publicUrl
    ensures picture.None? ==> r.0.profilePicUrl == st.profilePicUrl
    ensures (RouterPush("/") in r.1) <==> r.0.uploadError.None?
    ensures picture.Some? && sas.NotOk? ==> r.0.uploadError == Some(SasFailedMessage)
    ensures picture.Some? && sas.Ok? && put.NotOk? ==> r.0.uploadError == Some(BlobFailedMessage)
    ensures picture.Some? && sas.Rejected? ==>
      r.0.uploadError == Some(OrElse(sas.message, "Something went wrong"))
    ensures picture.Some? && sas.Ok? && put.Rejected? ==>
      r.0.uploadError == Some(OrElse(put.message, "Something went wrong"))
    ensures (picture.None? || (sas.Ok? && put.Ok?)) && post.NotOk? ==>
      r.0.uploadError == Some(OrElse(post.text, "Saving student failed"))
    ensures (picture.None? || (sas.Ok? && put.Ok?)) && post.Rejected? ==>
      r.0.uploadError == Some(OrElse(post.message, "Something went wrong"))
  {
    match picture
    case None => Submit(st, CollectForm(inputs, st), post, [])
    case Some(f) =>
      var u := UploadToAzureBlob(f, sas, put);
      match u.outcome
      case Threw(m) => (FormState(false, Some(OrElse(m, "Something went wrong")), st.profilePicUrl), u.sent)
      case Returned(url) =>
        var st' := FormState(true, None, url);
        var form := CollectForm(inputs, st)[Records.ProfilePictureUrl := url];
        assert form == CollectForm(inputs, st');
        var r := Submit(st', form, post, u.sent);
        PostedAfter(u.sent, r.1);
        r
  }

  /** A run that sent no POST before `before` ends finds the POST at position
      |before|. */
  lemma {:induction false} PostedAfter(before: seq<Effect>, effects: seq<Effect>)
    requires NoStudentWrite(before)
    requires |effects| > |before| && effects[..|before|] == before
    requires effects[|before|].Send? && effects[|before|].request.StudentPost?
    ensures Posted(effects) == Some(effects[|before|].request.form)
  {
    if |before| > 0 {
      assert !WritesStudent(before[0]);
      assert effects[0] == before[0];
      PostedAfter(before[1..], effects[1..]);
    }
  }

  /** A first submission without a picture posts the hidden field as "",
      which the students route stores as no photo. */
  lemma FirstSubmitWithoutPictureStoresNoPhoto(
    inputs: Records.FormData, sas: Reply<SasReply>, put: Reply<()>, post: Reply<()>,
    db: Records.Store)
    requires Records.FirstBlank(StudentsRoute.AsFields(CollectForm(inputs, InitialForm)), StudentsRoute.RouteOrder).None?
    ensures var r := HandleSubmit(InitialForm, inputs, None, sas, put, post);
      && Posted(r.1) == Some(CollectForm(inputs, InitialForm))
      && var row := StudentsRoute.Post(db, CollectForm(inputs, InitialForm), None);
      row.db[StudentsRoute.Get(CollectForm(inputs, InitialForm), Records.Email)].profile_picture_url == None
  {
  }
}
